=== FILE: README.md ===
# Payment relay decision rules, in Dafny

The relay (`server/index.js`) accepts a mobile-money payment request, forwards it to
the FreshPay aggregator, stores the transaction and reconciles it when the
aggregator calls back. Around its database and network calls sit a few pure
rules. This project states them as Dafny functions and proves their properties:

- **Operator classifier** (`Network`). `detectNetwork` removes one leading
  country code `243` (DR Congo) and takes the first two characters. It tests them
  against four prefix arrays in turn, and anything unmatched goes to `mpesa`.
  The model proves that it agrees with a single prefix table. It also proves that
  the copy inlined in `/debug-payment` returns the same operator for every input.
  That copy works by sequential reassignment, so the last matching array wins,
  and the two agree because no prefix occurs in two arrays. A number in local
  format (`0991234567`) has the prefix `09`, so it is classified as M-Pesa
  whatever its digits are.
- **Customer number** (`CustomerNumber`). The rule drops one leading `243`,
  then prepends `0` unless the number already starts with one. The model proves
  that the result always starts with `0` and ends with the national number. It
  also proves that only one country code is removed and that the rule is
  idempotent.
- **Callback handling** (`Webhook`). The handler reads `Reference || reference`
  and `Trans_Status || Status`. It maps the aggregator's status strings onto
  `PENDING | SUCCESS | FAILED`. It ignores encrypted payloads and rejects
  callbacks that carry neither identifier. Otherwise it builds a match filter,
  modelled as a datatype. The model proves that the filter selects exactly the
  rows whose `moko_reference` equals a present reference or whose `freshpay_ref`
  equals a present provider id.
- **Initiation** (`Initiation`). The handler requires truthy `app_name`,
  `amount` and `phone_number`. Once the reply parses to a value other than
  `null`, the stored row stays `PENDING` only when `Status` is exactly
  `"Success"`. The
  model also proves that the dry-run endpoint echoes the same `method` and
  `customer_number` as the real one. Its reference and callback URL are
  fixed, and it validates nothing.
- **Reference** (`Reference`). The reference is `AF` followed by base-36 clock
  and random digits, upper-cased.

JavaScript truthiness is explicit (`JsValues`): `undefined`, `null`, `false`,
`0`, `NaN` and `""` are falsy. `||` returns its first operand when that operand
is truthy. `substring` clamps and swaps its indices, and `includes` is a linear
search.

Three facts about the code that the model makes explicit:

- The two classifier tables are identical (`server/index.js:27-30` and
  `:72-75`), and `Network.DebugMethodAgreesWithDetectNetwork` proves that the
  two classifiers agree.
- The callback handler answers 500 when the store reports an update error
  (`server/index.js:320-323`), and `Webhook.ResponseCode` states this.
- A reply of JSON `null` makes reading `Status` throw (`server/index.js:206`).
  The catch at `:232-237` then answers 500 and the row stays `PENDING`
  (`Initiation.UnreadableReplyLeavesPending`). A body that is not JSON marks
  the row `FAILED` instead.

## Model

| member | source | states |
|---|---|---|
| `JsValues.Or` | server/index.js:267-268 | `a \|\| b` is truthy exactly when one operand is; it is the first operand when that one is truthy and the second otherwise |
| `JsValues.Substring` | server/index.js:24 | `substring` never fails, stays within the string, and for ordered non-negative indices is the clamped slice |
| `JsValues.Includes` | server/index.js:27-30 | the array search finds a prefix exactly when the prefix is an element of the array |
| `JsValues.Truthy` | server/index.js:116 | a value is falsy exactly when it is `undefined`, `null`, `false`, `0`, `NaN` or `""` |
| `JsValues.StartsWith` | server/index.js:157 | `s.startsWith(p)` holds exactly when `p` fits in `s` and agrees with it character by character |
| `JsValues.ToUpperCase` | server/index.js:39 | `toUpperCase` keeps the length and upper-cases each ASCII letter in place |
| `Network.StripCountryCode` | server/index.js:23 | `replace(/^243/, '')` removes exactly one leading `243` and leaves any other number unchanged |
| `Network.LocalPrefix` | server/index.js:23-24 | the prefix is the first two characters of the stripped number, or all of it when shorter |
| `Network.DetectNetwork` | server/index.js:22-33 | the operator is Airtel, Orange or Afrimoney exactly when the prefix is in that operator's array, and M-Pesa otherwise |
| `Network.DetectNetworkFollowsTable` | server/index.js:22-32 | the early-return classifier equals a lookup in one prefix table with M-Pesa as default |
| `Network.Tag` | server/index.js:26-32 | the `method` string of an operator is read back by `OperatorNamed` as that operator |
| `Network.OperatorNamed` | server/index.js:27-32 | exactly `mpesa`, `airtel`, `orange` and `afrimoney` name an operator, each its own |
| `Network.TagRoundTrip` | server/index.js:27-32 | a `method` string names an operator exactly when it is that operator's tag, so distinct operators are sent as distinct strings |
| `Network.DebugMethod` | server/index.js:69-75 | a prefix in the Afrimoney array always ends as Afrimoney (the last test wins); Airtel, Orange or Afrimoney is only chosen for a prefix in that operator's array |
| `Network.PrefixArraysDisjoint` | server/index.js:27-30 | no prefix belongs to two operators' arrays |
| `Network.DebugMethodAgreesWithDetectNetwork` | server/index.js:69-75 | the sequential-reassignment classifier of `/debug-payment` returns the same operator as `detectNetwork` for every number |
| `Network.KnownPrefixes` | server/index.js:22-30 | a number whose first two digits are listed goes to the table's operator, with or without the country code |
| `Network.TableMatchesArrays` | server/index.js:27-30 | each operator's array holds exactly the prefixes the table assigns to that operator |
| `Network.TablePrefixShape` | server/index.js:27-30 | every listed prefix has two characters and starts with 8 or 9, so none can be mistaken for the country code |
| `Network.UnknownPrefixDefaultsToMpesa` | server/index.js:32 | a prefix outside the table falls through to M-Pesa |
| `Network.ShortNumberDefaultsToMpesa` | server/index.js:24 | a number with fewer than two characters after the country code goes to M-Pesa |
| `Network.LocalFormatDefaultsToMpesa` | server/index.js:23-24 | every number in local format (leading `0`) goes to M-Pesa |
| `Network.InternationalExamples` | server/index.js:27-30 | `243812345678` is M-Pesa, `243991234567` Airtel, `243981234567` Afrimoney |
| `Network.DoubleCountryCodeExample` | server/index.js:23 | only one `243` is stripped: `243243991234` has prefix `24` and goes to M-Pesa |
| `Network.LocalFormatExample` | server/index.js:23-24 | the local-format Airtel number `0991234567` is classified M-Pesa |
| `CustomerNumber.FormattedPhone` | server/index.js:157-159 | `startsWith('243') ? substring(3) : phone` removes the country code exactly as the classifier's regular expression does |
| `CustomerNumber.EnsureLeadingZero` | server/index.js:160-162 | the result starts with `0`, is the input or the input after one `0`, and is unchanged when a `0` is already there |
| `CustomerNumber.Normalize` | server/index.js:157-162 | the customer number starts with `0` and ends with the number left after removing at most one leading `243`, adding at most one character; a national number that already starts with `0` is kept as it is |
| `CustomerNumber.NormalizeIdempotent` | server/index.js:157-162 | normalising a customer number again leaves it unchanged |
| `CustomerNumber.StripsCountryCodeOnce` | server/index.js:157-162 | for `243` followed by any rest, only the zero rule is applied to the rest, so a second `243` is kept |
| `CustomerNumber.KeepsOtherNumbers` | server/index.js:77-78 | a number without the country code is only zero-padded |
| `CustomerNumber.NormalizeExamples` | server/index.js:157-162 | `243812345678`, `0812345678` and `812345678` all become `0812345678` |
| `CustomerNumber.DoubleCountryCodeExample` | server/index.js:157-162 | `243243812` becomes `0243812` |
| `Transactions.StatusName` | server/index.js:285-290 | each status is written as its own name, which `ParseStatus` reads back to the same status, so distinct statuses are stored as distinct strings |
| `Transactions.ParseStatus` | server/index.js:285-290 | exactly the strings `PENDING`, `SUCCESS` and `FAILED` name a status |
| `Transactions.ParseStatusRoundTrip` | server/index.js:285-290 | a string parses to a status exactly when it is that status's name |
| `Webhook.TransactionRef` | server/index.js:267 | `Reference` wins whenever it is truthy, otherwise `reference` is used |
| `Webhook.FinalStatus` | server/index.js:268 | `Trans_Status` wins whenever it is truthy, otherwise `Status` is used |
| `Webhook.MapProviderStatus` | server/index.js:285-290 | SUCCESS exactly for `"Successful"`/`"Success"`, FAILED exactly for `"Failed"`/`"Failure"`, PENDING for everything else including absence |
| `Webhook.Selects` | server/index.js:310-316 | a filter selects a row only through a column holding the value it compares that column with |
| `Webhook.EitherReferenceIsUnion` | server/index.js:310-311 | the `.or(...)` filter selects exactly the rows either of its equalities selects |
| `Webhook.ChooseFilter` | server/index.js:310-316 | the chosen filter selects a row exactly when its `moko_reference` equals the present reference or its `freshpay_ref` equals the present provider id |
| `Webhook.Route` | server/index.js:249-316 | a truthy `data` is acknowledged with nothing computed; with no identifier the callback is rejected; otherwise the status mapping, the conditional `freshpay_ref` write and the matching rows are as stated |
| `Webhook.FilterShape` | server/index.js:310-316 | both identifiers give the OR filter, only the reference gives a `moko_reference` equality, only the provider id gives a `freshpay_ref` equality |
| `Webhook.EncryptedIgnoresOtherFields` | server/index.js:249-252 | any two callbacks with a truthy `data` are both ignored, whatever their other fields hold |
| `Webhook.FilterUsesOnlyPresentIdentifiers` | server/index.js:279-316 | every value a filter compares against is truthy |
| `Webhook.StatusExamples` | server/index.js:267-290 | `Trans_Status` overrides `Status` in the mapping; an absent status stays PENDING |
| `Webhook.ResponseCode` | server/index.js:318-345 | 400 exactly when no identifier is present, 500 exactly on a store update error, 200 otherwise |
| `Webhook.AcknowledgedUnlessRejected` | server/index.js:325-345 | no matching row and a thrown error are both answered with 200 |
| `Initiation.HasRequiredFields` | server/index.js:116-120 | the request passes exactly when none of `app_name`, `amount`, `phone_number` is one of the six falsy values |
| `Initiation.PayloadFor` | server/index.js:155-177 | the `method` string names the operator the prefix table gives; `customer_number` starts with `0`, ends with the national number with at most one character added, and is that number itself when it already starts with `0` |
| `Initiation.DebugPayload` | server/index.js:66-78 | the `method` and `customer_number` the dry run echoes equal those the real initiation sends |
| `Initiation.HandleReply` | server/index.js:192-231 | `Status` exactly `"Success"` initiates with the sent payload and `Transaction_id`; any other status is declined exactly then, with details `Comment \|\| 'Unknown error'`; a non-JSON body, and only that, is an invalid response; JSON `null` or a failed request crash; the row is FAILED exactly for non-JSON or a declined status |
| `Initiation.Initiate` | server/index.js:103-239 | each outcome holds exactly under its conditions: missing fields, insert failure, missing configuration, a crash (non-string phone, failed request, JSON `null`), invalid response, a declined status with its details, or initiation with the payload built from the phone number |
| `Initiation.RowStatus` | server/index.js:133 | no row only when nothing was inserted; initiation never stores SUCCESS |
| `Initiation.ResponseCode` | server/index.js:116-237 | 200 exactly when initiated, 400 exactly for missing fields or a declined payment |
| `Initiation.FalsyFieldsRejected` | server/index.js:116-120 | amount `0`, an empty `app_name` or an absent phone number are refused with 400 and nothing stored; amount `"0"` passes |
| `Initiation.DeclinedReplyAnswers400` | server/index.js:206-215 | a parsed reply with any status but `"Success"` answers 400 with `Comment`, or `Unknown error` when it is falsy, and marks the row FAILED; a non-JSON body answers 500 |
| `Initiation.ProviderStatusDecides` | server/index.js:206-215 | for a parsed reply, the row is PENDING iff `Status` is exactly `"Success"`; `"Successful"` and `"success"` mark it FAILED |
| `Initiation.UnreadableReplyLeavesPending` | server/index.js:195-204 | JSON `null` or a failed request leaves the row PENDING; a non-JSON body marks it FAILED |
| `Initiation.InitiationNeverSucceedsRow` | server/index.js:133 | the initiation handler never records SUCCESS |
| `Reference.RandomPart` | server/index.js:38 | the random part is the slice from index 2 to index 8 of the base-36 rendering, clamped to its length, so at most six digits after the leading `0.` |
| `Reference.GenerateReference` | server/index.js:36-40 | the reference is `AF`, then the upper-cased timestamp, then the upper-cased random part, character by character; it has no lower-case letters and the stated length |
| `Reference.ReferenceAlphabet` | server/index.js:36-40 | from base-36 inputs the reference holds only digits and capital letters |

## Left out

- Express setup, CORS, JSON body parsing, configuration loading and `app.listen` (`server/index.js:1-19`, `348-352`): framework plumbing.
- The health check and `/check-ip` (`server/index.js:43-63`): no decision logic; the latter is an outbound network call.
- The three updates the initiation handler sends (`server/index.js:199`, `:207`, `:217`) are neither inputs nor checked by the code. `Initiation.RowStatus` is therefore the status the handler writes. If the update at `:199` or `:207` fails, the row stays `PENDING` instead of `FAILED`. The update at `:217` changes no status; if it fails, `freshpay_ref` is never stored, so a later callback that carries only `Transaction_id` matches no row (`:315`). The model does not capture either.
- The `method` copied into the row's metadata (`server/index.js:218-221`) is left out with the other metadata.
- Executing store operations: the insert, the updates and the select are not modelled. Their results are inputs (`inserted`, `UpdateReply`), and the match filter is data. `Webhook.Selects` compares values for equality. It does not model PostgREST's text rendering of the filter, nor that the `.or(...)` string interpolates the identifiers without escaping commas or parentheses.
- The aggregator call and `JSON.parse`: their outcome is the `ProviderReply` input.
- The clock and `Math.random()`: `Reference.GenerateReference` takes their base-36 renderings as inputs.
- Metadata blobs, ISO timestamps, logging, and response bodies other than the status code. The payload fields copied through unchanged (`amount.toString()`, currency, names, e-mail, callback URL) are also left out.
- `Initiation.DebugPayload`: the model takes a string phone number. `/debug-payment` throws when `phone_number` is missing or not a string, and when `amount` is missing or `null` (`amount.toString()`, `server/index.js:83`); neither is modelled.
- Numbers are exact reals: floating point is not modelled, and `-0` is the same value as `0`.
- `JsValues.ToUpperCase` upper-cases ASCII letters only. Base-36 renderings contain nothing else.
- The callback handler does not check a row's current status before overwriting it. The model of its decisions therefore says nothing about a terminal state being final, and neither does the code.

=== FILE: customer_number.dfy ===
/** The `customer_number` sent to the aggregator: the phone number in local
    format, that is without the country code and with one leading zero. */
module CustomerNumber {
  import opened JsValues
  import Network

  /** `phone.startsWith('243') ? phone.substring(3) : phone`. */
  function FormattedPhone(phone: string): (number: string)
    ensures number == Network.StripCountryCode(phone)
  {
    if StartsWith(phone, "243") then Substring(phone, 3, |phone|) else phone
  }

  /** `number.startsWith('0') ? number : '0' + number`. */
  function EnsureLeadingZero(number: string): (r: string)
    ensures |r| > 0 && r[0] == '0'
    ensures r == number || r == "0" + number
    ensures StartsWith(number, "0") ==> r == number
  {
    if StartsWith(number, "0") then number else "0" + number
  }

  /** The local-format number: it starts with `0`, it ends with the
      number left after removing at most one leading `243`, and it adds
      at most that one `0` in front of it. */
  function Normalize(phone: string): (r: string)
    ensures |r| > 0 && r[0] == '0'
    ensures var national := Network.StripCountryCode(phone);
      |national| <= |r| <= |national| + 1 && r[|r| - |national|..] == national
    ensures StartsWith(Network.StripCountryCode(phone), "0") ==> r == Network.StripCountryCode(phone)
  {
    EnsureLeadingZero(FormattedPhone(phone))
  }

  /** Normalising a normalised number changes nothing: it starts with `0`,
      so neither the country code nor another zero applies. */
  lemma NormalizeIdempotent(phone: string)
    ensures Normalize(Normalize(phone)) == Normalize(phone)
  {
  }

  /** Only one country code is removed: a number that repeats it keeps the
      second copy. */
  lemma StripsCountryCodeOnce(rest: string)
    ensures Normalize("243" + rest) == EnsureLeadingZero(rest)
  {
  }

  /** A number that does not start with the country code is only zero-padded. */
  lemma KeepsOtherNumbers(phone: string)
    requires !StartsWith(phone, "243")
    ensures Normalize(phone) == EnsureLeadingZero(phone)
  {
  }

  lemma NormalizeExamples()
    ensures Normalize("243812345678") == "0812345678"
    ensures Normalize("0812345678") == "0812345678"
    ensures Normalize("812345678") == "0812345678"
  {
    var international := "243812345678";
    assert international[..3] == "243";
    assert international[3..] == "812345678";
    var local := "0812345678";
    assert local[..3][0] != "243"[0];
    assert local[..1] == "0";
    var bare := "812345678";
    assert bare[..3][0] != "243"[0];
    assert bare[..1][0] != "0"[0];
    assert "0" + bare == local;
  }

  lemma DoubleCountryCodeExample()
    ensures Normalize("243243812") == "0243812"
  {
    var twice := "243243812";
    assert twice[..3] == "243";
    assert twice[3..] == "243812";
    var once := "243812";
    assert once[..1][0] != "0"[0];
    assert "0" + once == "0243812";
  }
}

=== FILE: initiation.dfy ===
/** The decisions of the payment initiation handler (`POST /initiate-payment`)
    and of its dry-run twin (`POST /debug-payment`): field validation, the
    payload's operator and customer number, and what the aggregator's
    synchronous answer does to the stored transaction. */
module Initiation {
  import opened JsValues
  import opened Transactions
  import Network
  import CustomerNumber

  /** The request body, reduced to the fields the handler decides on.
      `user_id`, `currency` and the payer's names and e-mail are copied
      through unchanged. */
  datatype PaymentRequest = PaymentRequest(appName: JsValue, amount: JsValue, phoneNumber: JsValue)

  /** `app_name`, `amount` and `phone_number` must all be truthy. */
  predicate HasRequiredFields(req: PaymentRequest)
    ensures HasRequiredFields(req) <==>
      req.appName !in FalsyValues && req.amount !in FalsyValues && req.phoneNumber !in FalsyValues
  {
    Truthy(req.appName) && Truthy(req.amount) && Truthy(req.phoneNumber)
  }

  /** The two payload fields the relay computes from the phone number: the
      `method` string naming the operator and the `customer_number`. */
  datatype Payload = Payload(methodName: string, customerNumber: string)

  /** The payload `/initiate-payment` sends: the operator the prefix table
      gives, and the national number with a leading `0`. */
  function PayloadFor(phone: string): (p: Payload)
    ensures Network.OperatorNamed(p.methodName) == Some(Network.Lookup(Network.LocalPrefix(phone)))
    ensures |p.customerNumber| > 0 && p.customerNumber[0] == '0'
    ensures var national := Network.StripCountryCode(phone);
      && |national| <= |p.customerNumber| <= |national| + 1
      && p.customerNumber[|p.customerNumber| - |national|..] == national
    ensures StartsWith(Network.StripCountryCode(phone), "0") ==>
      p.customerNumber == Network.StripCountryCode(phone)
  {
    Network.DetectNetworkFollowsTable(phone);
    Payload(Network.Tag(Network.DetectNetwork(phone)), CustomerNumber.Normalize(phone))
  }

  /** The `method` and `customer_number` that `/debug-payment` echoes,
      built with its own inline classifier. Its normaliser is textually
      the same as the real handler's, so one function models both.
      The `method` and `customer_number` are the ones the real initiation
      sends for the same phone number. The rest of the echoed payload
      differs: its reference is the constant `DEBUG123`, its callback URL
      is fixed, and no field is validated first. */
  function DebugPayload(phone: string): (p: Payload)
    ensures p == PayloadFor(phone)
  {
    Network.DebugMethodAgreesWithDetectNetwork(phone);
    Payload(Network.Tag(Network.DebugMethod(phone)), CustomerNumber.Normalize(phone))
  }

  /** What came back from the aggregator: the request failed on the
      network, the body was not JSON, it was JSON `null`, or it parsed to a
      value whose `Status`, `Comment` and `Transaction_id` are these (all
      `undefined` for a number, string or array). */
  datatype ProviderReply =
    | NetworkError
    | NotJson
    | JsonNull
    | Json(status: JsValue, comment: JsValue, transactionId: JsValue)

  /** How the handler ends. */
  datatype Outcome =
    | MissingFields                                 // 400, nothing stored
    | InsertFailed                                  // 500, nothing stored
    | ConfigMissing                                 // 500, row left PENDING
    | Crashed                                       // 500 from the catch-all, row left PENDING
    | InvalidProviderResponse                       // 500, row set FAILED
    | ProviderDeclined(details: JsValue)            // 400, row set FAILED
    | Initiated(payload: Payload, freshpayRef: JsValue)  // 200, row PENDING; `freshpay_ref` write requested, not checked

  /** The handler's last step, once the transaction is stored and the
      payload was sent: only a parsed reply whose `Status` is exactly
      "Success" leaves the transaction pending. */
  function HandleReply(sent: Payload, reply: ProviderReply): (o: Outcome)
    ensures RowStatus(o) == Some(FAILED) <==>
      reply.NotJson? || (reply.Json? && reply.status != Str("Success"))
    ensures o.Initiated? <==> reply.Json? && reply.status == Str("Success")
    ensures o.Initiated? ==> o.payload == sent && o.freshpayRef == reply.transactionId
    ensures o.ProviderDeclined? <==> reply.Json? && reply.status != Str("Success")
    ensures o.ProviderDeclined? ==> o.details == Or(reply.comment, Str("Unknown error"))
    ensures o.ProviderDeclined? ==> Truthy(o.details)
    ensures o.InvalidProviderResponse? <==> reply.NotJson?
    ensures o.Crashed? <==> reply.NetworkError? || reply.JsonNull?
    ensures RowStatus(o).Some?
  {
    match reply
    case NetworkError => Crashed
    case NotJson => InvalidProviderResponse
    case JsonNull => Crashed   // reading `Status` of null throws
    case Json(status, comment, id) =>
      if status != Str("Success") then ProviderDeclined(Or(comment, Str("Unknown error")))
      else Initiated(sent, id)
  }

  /** The handler, with the store's insert result, the merchant
      configuration and the aggregator's reply as inputs. A phone number
      that is truthy but not a string makes `replace` throw. */
  function Initiate(req: PaymentRequest, inserted: bool, configured: bool, reply: ProviderReply): (o: Outcome)
    ensures o.MissingFields? <==> !HasRequiredFields(req)
    ensures RowStatus(o) == None <==> !HasRequiredFields(req) || !inserted
    ensures RowStatus(o) == Some(FAILED) <==>
      && HasRequiredFields(req) && inserted && configured && req.phoneNumber.Str?
      && (reply.NotJson? || (reply.Json? && reply.status != Str("Success")))
    ensures o.Initiated? <==>
      && HasRequiredFields(req) && inserted && configured && req.phoneNumber.Str?
      && reply.Json? && reply.status == Str("Success")
    ensures o.Initiated? ==>
      o.payload == PayloadFor(req.phoneNumber.s) && o.freshpayRef == reply.transactionId
    ensures o.InsertFailed? <==> HasRequiredFields(req) && !inserted
    ensures o.ConfigMissing? <==> HasRequiredFields(req) && inserted && !configured
    ensures o.ProviderDeclined? <==>
      && HasRequiredFields(req) && inserted && configured && req.phoneNumber.Str?
      && reply.Json? && reply.status != Str("Success")
    ensures o.ProviderDeclined? ==> o.details == Or(reply.comment, Str("Unknown error"))
    ensures o.InvalidProviderResponse? <==>
      HasRequiredFields(req) && inserted && configured && req.phoneNumber.Str? && reply.NotJson?
    ensures o.Crashed? <==>
      && HasRequiredFields(req) && inserted && configured
      && (!req.phoneNumber.Str? || reply.NetworkError? || reply.JsonNull?)
  {
    if !HasRequiredFields(req) then MissingFields
    else if !inserted then InsertFailed
    else if !configured then ConfigMissing
    else if !req.phoneNumber.Str? then Crashed
    else HandleReply(PayloadFor(req.phoneNumber.s), reply)
  }

  /** The `status` the handler writes to the row, `None` when no row was
      inserted. Whether the store applies that write is not modelled. */
  function RowStatus(o: Outcome): (s: Option<TxStatus>)
    ensures s == None <==> o.MissingFields? || o.InsertFailed?
    ensures s != Some(SUCCESS)
  {
    match o
    case MissingFields => None
    case InsertFailed => None
    case ConfigMissing => Some(PENDING)
    case Crashed => Some(PENDING)
    case InvalidProviderResponse => Some(FAILED)
    case ProviderDeclined(_) => Some(FAILED)
    case Initiated(_, _) => Some(PENDING)
  }

  /** The HTTP status of the response. */
  function ResponseCode(o: Outcome): (code: int)
    ensures code == 200 <==> o.Initiated?
    ensures code == 400 <==> o.MissingFields? || o.ProviderDeclined?
    ensures code in {200, 400, 500}
  {
    match o
    case MissingFields => 400
    case ProviderDeclined(_) => 400
    case Initiated(_, _) => 200
    case InsertFailed => 500
    case ConfigMissing => 500
    case Crashed => 500
    case InvalidProviderResponse => 500
  }

  /** Falsy values are missing values: an amount of 0 or an empty
      application name is refused with 400 before anything is stored,
      while the string "0" is accepted. */
  lemma FalsyFieldsRejected(phone: string, inserted: bool, configured: bool, reply: ProviderReply)
    ensures var o := Initiate(PaymentRequest(Str("shop"), Num(0.0), Str(phone)), inserted, configured, reply);
      o == MissingFields && ResponseCode(o) == 400 && RowStatus(o) == None
    ensures Initiate(PaymentRequest(Str(""), Num(5.0), Str(phone)), inserted, configured, reply) == MissingFields
    ensures Initiate(PaymentRequest(Str("shop"), Num(5.0), Undefined), inserted, configured, reply) == MissingFields
    ensures Initiate(PaymentRequest(Str("shop"), Str("0"), Str("243812345678")), inserted, configured, reply) != MissingFields
  {
  }

  /** Once the reply parses to a non-null value, its `Status` alone
      decides: exactly "Success" keeps the row pending, anything else,
      "Successful" and "success" included, marks it FAILED. */
  lemma ProviderStatusDecides(req: PaymentRequest, status: JsValue, comment: JsValue, id: JsValue)
    requires HasRequiredFields(req) && req.phoneNumber.Str?
    ensures var o := Initiate(req, true, true, Json(status, comment, id));
      RowStatus(o) == Some(if status == Str("Success") then PENDING else FAILED)
    ensures RowStatus(Initiate(req, true, true, Json(Str("Successful"), comment, id))) == Some(FAILED)
    ensures RowStatus(Initiate(req, true, true, Json(Str("success"), comment, id))) == Some(FAILED)
  {
  }

  /** A reply of JSON `null` or a failed request is not recorded as a
      failure: the handler throws, answers 500 and the row stays PENDING. */
  lemma UnreadableReplyLeavesPending(req: PaymentRequest)
    requires HasRequiredFields(req) && req.phoneNumber.Str?
    ensures RowStatus(Initiate(req, true, true, JsonNull)) == Some(PENDING)
    ensures RowStatus(Initiate(req, true, true, NetworkError)) == Some(PENDING)
    ensures RowStatus(Initiate(req, true, true, NotJson)) == Some(FAILED)
  {
  }

  /** A reply that parses but does not say exactly "Success" is answered
      with 400 and the reply's `Comment`, or "Unknown error" when that is
      falsy; a body that is not JSON is answered with 500. */
  lemma DeclinedReplyAnswers400(req: PaymentRequest, status: JsValue, comment: JsValue, id: JsValue)
    requires HasRequiredFields(req) && req.phoneNumber.Str? && status != Str("Success")
    ensures var o := Initiate(req, true, true, Json(status, comment, id));
      && o == ProviderDeclined(Or(comment, Str("Unknown error")))
      && ResponseCode(o) == 400 && RowStatus(o) == Some(FAILED)
    ensures !Truthy(comment) ==>
      Initiate(req, true, true, Json(status, comment, id)) == ProviderDeclined(Str("Unknown error"))
    ensures ResponseCode(Initiate(req, true, true, NotJson)) == 500
  {
  }

  /** The relay never records SUCCESS at initiation; only a callback can. */
  lemma InitiationNeverSucceedsRow(req: PaymentRequest, inserted: bool, configured: bool, reply: ProviderReply)
    ensures RowStatus(Initiate(req, inserted, configured, reply)) != Some(SUCCESS)
  {
  }
}

=== FILE: js_values.dfy ===
/** The slice of JavaScript value semantics the relay's handlers depend on:
    truthiness, the `||` operator, and the string and array builtins they call
    (`startsWith`, `substring`, `includes`, `toUpperCase`). */
module JsValues {

  datatype Option<+T> = None | Some(value: T)

  /** A field of a parsed JSON request body, as the handlers see it.
      `Obj` stands for any non-null object or array (always truthy);
      numbers are kept exact, with `NaN` apart. */
  datatype JsValue =
    | Undefined
    | Null
    | Bool(b: bool)
    | Num(x: real)
    | NaN
    | Str(s: string)
    | Obj

  /** The six falsy values of JavaScript. */
  const FalsyValues: set<JsValue> := {Undefined, Null, Bool(false), Num(0.0), NaN, Str("")}

  /** JavaScript's ToBoolean: `undefined`, `null`, `false`, `0`, `NaN` and
      the empty string are falsy, every other value is truthy. */
  predicate Truthy(v: JsValue)
    ensures !Truthy(v) <==> v in FalsyValues
  {
    match v
    case Undefined => false
    case Null => false
    case Bool(b) => b
    case Num(x) => x != 0.0
    case NaN => false
    case Str(s) => s != ""
    case Obj => true
  }

  /** `a || b`: the first operand when it is truthy, otherwise the second. */
  function Or(a: JsValue, b: JsValue): (r: JsValue)
    ensures Truthy(r) <==> Truthy(a) || Truthy(b)
    ensures Truthy(a) ==> r == a
    ensures !Truthy(a) ==> r == b
  {
    if Truthy(a) then a else b
  }

  /** `s.startsWith(p)`. */
  predicate StartsWith(s: string, p: string)
    ensures StartsWith(s, p) <==> |p| <= |s| && forall i :: 0 <= i < |p| ==> s[i] == p[i]
  {
    |p| <= |s| && s[..|p|] == p
  }

  function Min(a: int, b: int): int { if a <= b then a else b }

  /** Clamps a `substring` index into `[0, len]`. */
  function Clamp(i: int, len: nat): (c: nat)
    ensures c <= len
  {
    if i < 0 then 0 else if i > len then len else i
  }

  /** `s.substring(start, end)`: both indices are clamped to the string and
      swapped when they arrive in the wrong order, so it never fails. */
  function Substring(s: string, start: int, end: int): (r: string)
    ensures |r| <= |s|
    ensures 0 <= start <= end ==> r == s[Min(start, |s|)..Min(end, |s|)]
  {
    var a, b := Clamp(start, |s|), Clamp(end, |s|);
    if a <= b then s[a..b] else s[b..a]
  }

  /** `list.includes(x)` on an array of strings: a left-to-right search. */
  function Includes(list: seq<string>, x: string): (found: bool)
    ensures found <==> x in list
    decreases |list|
  {
    |list| > 0 && (list[0] == x || Includes(list[1..], x))
  }

  predicate IsLowerAscii(c: char) { 'a' <= c <= 'z' }

  /** `toUpperCase` on one character, for the ASCII range the relay produces. */
  function UpperAscii(c: char): (u: char)
    ensures !IsLowerAscii(u)
    ensures IsLowerAscii(c) ==> u as int == c as int - 32
    ensures !IsLowerAscii(c) ==> u == c
  {
    if IsLowerAscii(c) then (c as int - 32) as char else c
  }

  /** `s.toUpperCase()` restricted to ASCII letters. */
  function ToUpperCase(s: string): (r: string)
    ensures |r| == |s|
    ensures forall i :: 0 <= i < |s| ==> r[i] == UpperAscii(s[i])
  {
    seq(|s|, i requires 0 <= i < |s| => UpperAscii(s[i]))
  }
}

=== FILE: network.dfy ===
/** Which mobile-money operator a phone number belongs to, decided from the
    two digits that follow the DR Congo country code 243. */
module Network {
  import opened JsValues

  datatype Operator = Mpesa | Airtel | Orange | Afrimoney

  /** The `method` string sent to the payment aggregator. */
  function Tag(op: Operator): (name: string)
    ensures OperatorNamed(name) == Some(op)
  {
    match op
    case Mpesa => "mpesa"
    case Airtel => "airtel"
    case Orange => "orange"
    case Afrimoney => "afrimoney"
  }

  /** The operator a `method` string names, if any. */
  function OperatorNamed(name: string): (op: Option<Operator>)
    ensures op == Some(Mpesa) <==> name == "mpesa"
    ensures op == Some(Airtel) <==> name == "airtel"
    ensures op == Some(Orange) <==> name == "orange"
    ensures op == Some(Afrimoney) <==> name == "afrimoney"
  {
    if name == "mpesa" then Some(Mpesa)
    else if name == "airtel" then Some(Airtel)
    else if name == "orange" then Some(Orange)
    else if name == "afrimoney" then Some(Afrimoney)
    else None
  }

  /** A `method` string names exactly the operator it was made from, so
      distinct operators are sent as distinct strings. */
  lemma TagRoundTrip(name: string, op: Operator)
    ensures OperatorNamed(name) == Some(op) <==> Tag(op) == name
  {
    if Tag(op) == name {
      assert OperatorNamed(name) == Some(op);
    }
  }

  const DefaultOperator: Operator := Mpesa

  // The four prefix arrays, in the order the handlers test them.
  const MpesaPrefixes: seq<string> := ["81", "82", "83"]
  const AirtelPrefixes: seq<string> := ["84", "85", "86", "89", "90", "91", "97", "99"]
  const OrangePrefixes: seq<string> := ["80"]
  const AfrimoneyPrefixes: seq<string> := ["98"]

  /** The operator assignment as one table, independent of the order in
      which the handlers test the arrays. */
  const PrefixTable: map<string, Operator> := map[
    "81" := Mpesa, "82" := Mpesa, "83" := Mpesa,
    "84" := Airtel, "85" := Airtel, "86" := Airtel, "89" := Airtel,
    "90" := Airtel, "91" := Airtel, "97" := Airtel, "99" := Airtel,
    "80" := Orange,
    "98" := Afrimoney]

  /** Operator of a two-character prefix according to the table. */
  function Lookup(prefix: string): Operator {
    if prefix in PrefixTable then PrefixTable[prefix] else DefaultOperator
  }

  /** `phone.replace(/^243/, '')`: one anchored occurrence of the country
      code is removed, and only at the start. */
  function StripCountryCode(phone: string): (number: string)
    ensures StartsWith(phone, "243") ==> phone == "243" + number
    ensures !StartsWith(phone, "243") ==> number == phone
  {
    if StartsWith(phone, "243") then phone[3..] else phone
  }

  /** `number.substring(0, 2)` of the stripped number: its first two
      characters, or all of it when it is shorter. */
  function LocalPrefix(phone: string): (prefix: string)
    ensures |prefix| == Min(2, |StripCountryCode(phone)|)
    ensures StartsWith(StripCountryCode(phone), prefix)
  {
    Substring(StripCountryCode(phone), 0, 2)
  }

  /** `detectNetwork`: early-returning tests of the four arrays, falling
      through to M-Pesa. Agrees with the table for every input. */
  function DetectNetwork(phone: string): (op: Operator)
    ensures op == Airtel <==> LocalPrefix(phone) in AirtelPrefixes
    ensures op == Orange <==> LocalPrefix(phone) in OrangePrefixes
    ensures op == Afrimoney <==> LocalPrefix(phone) in AfrimoneyPrefixes
  {
    var prefix := LocalPrefix(phone);
    PrefixArraysDisjoint(prefix);
    if Includes(MpesaPrefixes, prefix) then Mpesa
    else if Includes(AirtelPrefixes, prefix) then Airtel
    else if Includes(OrangePrefixes, prefix) then Orange
    else if Includes(AfrimoneyPrefixes, prefix) then Afrimoney
    else DefaultOperator
  }

  /** The copy in `/debug-payment`: `method` starts at M-Pesa and every
      array that contains the prefix overwrites it, so the LAST matching
      array wins rather than the first. */
  function DebugMethod(phone: string): (m: Operator)
    ensures LocalPrefix(phone) in AfrimoneyPrefixes ==> m == Afrimoney
    ensures m == Orange ==> LocalPrefix(phone) in OrangePrefixes
    ensures m == Airtel ==> LocalPrefix(phone) in AirtelPrefixes
    ensures m == Afrimoney ==> LocalPrefix(phone) in AfrimoneyPrefixes
  {
    var prefix := LocalPrefix(phone);
    var m0 := Mpesa;
    var m1 := if Includes(MpesaPrefixes, prefix) then Mpesa else m0;
    var m2 := if Includes(AirtelPrefixes, prefix) then Airtel else m1;
    var m3 := if Includes(OrangePrefixes, prefix) then Orange else m2;
    var m4 := if Includes(AfrimoneyPrefixes, prefix) then Afrimoney else m3;
    m4
  }

  /** No prefix occurs in two of the arrays, which is why first-match and
      last-match agree. */
  lemma PrefixArraysDisjoint(p: string)
    ensures !(p in MpesaPrefixes && p in AirtelPrefixes)
    ensures !(p in MpesaPrefixes && p in OrangePrefixes)
    ensures !(p in MpesaPrefixes && p in AfrimoneyPrefixes)
    ensures !(p in AirtelPrefixes && p in OrangePrefixes)
    ensures !(p in AirtelPrefixes && p in AfrimoneyPrefixes)
    ensures !(p in OrangePrefixes && p in AfrimoneyPrefixes)
  {
  }

  /** The two classifiers return the same operator for every phone number. */
  lemma DebugMethodAgreesWithDetectNetwork(phone: string)
    ensures DebugMethod(phone) == DetectNetwork(phone)
  {
  }

  /** The table: with the country code or without it, a number whose first
      two digits are a listed prefix goes to that prefix's operator. */
  lemma KnownPrefixes(p: string, rest: string)
    requires p in PrefixTable
    ensures DetectNetwork("243" + p + rest) == PrefixTable[p]
    ensures DetectNetwork(p + rest) == PrefixTable[p]
  {
    TablePrefixShape(p);
    TableMatchesArrays(p);
    assert (p + rest)[0] == p[0];
    assert (p + rest)[..2] == p;
    var withCode := "243" + p + rest;
    assert withCode[..3] == "243";
    assert withCode[3..] == p + rest;
  }

  /** Every listed prefix is two characters long and starts with 8 or 9. */
  lemma TablePrefixShape(p: string)
    requires p in PrefixTable
    ensures |p| == 2 && (p[0] == '8' || p[0] == '9')
  {
  }

  /** Each operator's array holds exactly that operator's table entries. */
  lemma TableMatchesArrays(p: string)
    requires p in PrefixTable
    ensures p in MpesaPrefixes <==> PrefixTable[p] == Mpesa
    ensures p in AirtelPrefixes <==> PrefixTable[p] == Airtel
    ensures p in OrangePrefixes <==> PrefixTable[p] == Orange
    ensures p in AfrimoneyPrefixes <==> PrefixTable[p] == Afrimoney
  {
  }

  /** Any number whose (stripped) prefix is not in the table goes to
      M-Pesa, and so do numbers too short to have a two-digit prefix. */
  lemma UnknownPrefixDefaultsToMpesa(phone: string)
    requires LocalPrefix(phone) !in PrefixTable
    ensures DetectNetwork(phone) == Mpesa
  {
  }

  lemma ShortNumberDefaultsToMpesa(phone: string)
    requires |StripCountryCode(phone)| < 2
    ensures DetectNetwork(phone) == Mpesa
  {
  }

  /** A number in local format (leading `0`) is never stripped and its
      prefix is `0x`, which no array lists: it goes to M-Pesa whatever
      operator its digits belong to. */
  lemma LocalFormatDefaultsToMpesa(phone: string)
    requires |phone| > 0 && phone[0] == '0'
    ensures DetectNetwork(phone) == Mpesa
  {
    assert "243"[0] != phone[0];
    assert LocalPrefix(phone)[0] == '0';
  }

  /** Whichever array a listed prefix is in, the table and the early
      returns agree on every number. */
  lemma DetectNetworkFollowsTable(phone: string)
    ensures DetectNetwork(phone) == Lookup(LocalPrefix(phone))
  {
  }

  lemma InternationalExamples()
    ensures DetectNetwork("243812345678") == Mpesa
    ensures DetectNetwork("243991234567") == Airtel
    ensures DetectNetwork("243981234567") == Afrimoney
  {
    var a, b, c := "243812345678", "243991234567", "243981234567";
    assert a[..3] == b[..3] == c[..3] == "243";
    assert a[3..][..2] == "81";
    assert b[3..][..2] == "99";
    assert c[3..][..2] == "98";
  }

  /** Only one country code is stripped: after it, `24` is an unknown prefix. */
  lemma DoubleCountryCodeExample()
    ensures DetectNetwork("243243991234") == Mpesa
  {
    var a := "243243991234";
    assert a[..3] == "243";
    assert a[3..][..2] == "24";
  }

  /** A local-format Airtel number is classified as M-Pesa. */
  lemma LocalFormatExample()
    ensures DetectNetwork("0991234567") == Mpesa
  {
    LocalFormatDefaultsToMpesa("0991234567");
  }
}

=== FILE: reference.dfy ===
/** The relay's own transaction reference: `AF`, then the clock in base 36,
    then up to six random base-36 digits, all upper-cased. The clock and the
    random number are inputs here, already rendered as base-36 strings. */
module Reference {
  import opened JsValues

  predicate IsBase36Digit(c: char) { '0' <= c <= '9' || 'a' <= c <= 'z' }
  predicate IsReferenceChar(c: char) { '0' <= c <= '9' || 'A' <= c <= 'Z' }

  /** `Math.random().toString(36).substring(2, 8)`: drops the leading `0.`
      and keeps at most six digits. */
  function RandomPart(randomBase36: string): (part: string)
    ensures |part| <= 6
    ensures part == randomBase36[Min(2, |randomBase36|)..Min(8, |randomBase36|)]
  {
    Substring(randomBase36, 2, 8)
  }

  /** `` `AF${timestamp}${random}`.toUpperCase() ``. */
  function GenerateReference(timestampBase36: string, randomBase36: string): (ref: string)
    ensures |ref| >= 2 && ref[..2] == "AF"
    ensures |ref| == 2 + |timestampBase36| + |RandomPart(randomBase36)|
    ensures |ref| <= 8 + |timestampBase36|
    ensures forall i :: 0 <= i < |ref| ==> !IsLowerAscii(ref[i])
    ensures forall i :: 0 <= i < |timestampBase36| ==> ref[2 + i] == UpperAscii(timestampBase36[i])
    ensures var part := RandomPart(randomBase36);
      forall i :: 0 <= i < |part| ==> ref[2 + |timestampBase36| + i] == UpperAscii(part[i])
  {
    ToUpperCase("AF" + timestampBase36 + RandomPart(randomBase36))
  }

  /** From base-36 digits, a reference holds only digits and capital letters. */
  lemma ReferenceAlphabet(timestampBase36: string, randomBase36: string)
    requires forall i :: 0 <= i < |timestampBase36| ==> IsBase36Digit(timestampBase36[i])
    requires forall i :: 2 <= i < |randomBase36| ==> IsBase36Digit(randomBase36[i])
    ensures forall i :: 0 <= i < |GenerateReference(timestampBase36, randomBase36)| ==>
      IsReferenceChar(GenerateReference(timestampBase36, randomBase36)[i])
  {
    var part := RandomPart(randomBase36);
    var raw := "AF" + timestampBase36 + part;
    var ref := GenerateReference(timestampBase36, randomBase36);
    assert ref == ToUpperCase(raw);
    forall i | 0 <= i < |part|
      ensures IsBase36Digit(part[i])
    {
      if |randomBase36| >= 2 {
        assert part[i] == randomBase36[Min(2, |randomBase36|) + i];
      }
    }
    forall i | 0 <= i < |ref|
      ensures IsReferenceChar(ref[i])
    {
      assert ref[i] == UpperAscii(raw[i]);
      if i >= 2 + |timestampBase36| {
        assert raw[i] == part[i - 2 - |timestampBase36|];
      } else if i >= 2 {
        assert raw[i] == timestampBase36[i - 2];
      }
    }
  }
}

=== FILE: transactions.dfy ===
/** The stored transaction, reduced to the columns the relay's decisions
    touch: its lifecycle status and the two references a callback can be
    matched on. */
module Transactions {
  import opened JsValues

  /** The three-state lifecycle of the `status` column. */
  datatype TxStatus = PENDING | SUCCESS | FAILED

  /** The text stored in the `status` column. */
  function StatusName(s: TxStatus): (name: string)
    ensures ParseStatus(name) == Some(s)
  {
    match s
    case PENDING => "PENDING"
    case SUCCESS => "SUCCESS"
    case FAILED => "FAILED"
  }

  /** Reads the `status` column back; any other text is not a state. */
  function ParseStatus(text: string): (s: Option<TxStatus>)
    ensures s == Some(SUCCESS) <==> text == "SUCCESS"
    ensures s == Some(FAILED) <==> text == "FAILED"
    ensures s == Some(PENDING) <==> text == "PENDING"
  {
    if text == "PENDING" then Some(PENDING)
    else if text == "SUCCESS" then Some(SUCCESS)
    else if text == "FAILED" then Some(FAILED)
    else None
  }

  /** Text that reads back as a state is exactly that state's name, so
      distinct states are stored as distinct texts. */
  lemma ParseStatusRoundTrip(text: string, s: TxStatus)
    ensures ParseStatus(text) == Some(s) <==> StatusName(s) == text
  {
    if StatusName(s) == text {
      assert ParseStatus(text) == Some(s);
    }
  }

  /** A stored row's two correlation columns: `moko_reference`, the
      relay's own reference, and `freshpay_ref`, the aggregator's id. */
  datatype StoredRow = StoredRow(mokoReference: JsValue, freshpayRef: JsValue)
}

=== FILE: webhook.dfy ===
/** The decisions of the aggregator's callback handler (`POST /moko-webhook`):
    which fields it reads, which lifecycle state it records, and which
    stored transactions it selects for the update. */
module Webhook {
  import opened JsValues
  import opened Transactions

  /** The callback body, reduced to the fields the handler decides on.
      The wire names are `data`, `Reference`, `reference`, `Trans_Status`,
      `Status` and `Transaction_id`. */
  datatype CallbackBody = CallbackBody(
    data: JsValue,
    upperReference: JsValue,
    lowerReference: JsValue,
    transStatus: JsValue,
    status: JsValue,
    transactionId: JsValue)

  /** `Reference || reference`: the relay's own reference, under either
      naming convention. */
  function TransactionRef(body: CallbackBody): (ref: JsValue)
    ensures Truthy(body.upperReference) ==> ref == body.upperReference
    ensures !Truthy(body.upperReference) ==> ref == body.lowerReference
  {
    Or(body.upperReference, body.lowerReference)
  }

  /** `Trans_Status || Status`: the reported status, under either naming
      convention. */
  function FinalStatus(body: CallbackBody): (st: JsValue)
    ensures Truthy(body.transStatus) ==> st == body.transStatus
    ensures !Truthy(body.transStatus) ==> st == body.status
  {
    Or(body.transStatus, body.status)
  }

  /** The aggregator's status strings, compared with `===`, mapped onto the
      lifecycle; anything unrecognised, absent included, stays pending. */
  function MapProviderStatus(reported: JsValue): (s: TxStatus)
    ensures s == SUCCESS <==> reported == Str("Successful") || reported == Str("Success")
    ensures s == FAILED <==> reported == Str("Failed") || reported == Str("Failure")
  {
    if reported == Str("Successful") || reported == Str("Success") then SUCCESS
    else if reported == Str("Failed") || reported == Str("Failure") then FAILED
    else PENDING
  }

  /** Which rows the update targets. */
  datatype MatchFilter =
    | EitherReference(mokoReference: JsValue, freshpayRef: JsValue)  // `.or(moko_reference.eq.…,freshpay_ref.eq.…)`
    | MokoReferenceIs(mokoReference: JsValue)                        // `.eq('moko_reference', …)`
    | FreshpayRefIs(freshpayRef: JsValue)                            // `.eq('freshpay_ref', …)`

  /** Whether a filter selects a stored row: a row is only ever selected
      through a column that holds the value the filter compares it with. */
  predicate Selects(f: MatchFilter, row: StoredRow)
    ensures Selects(f, row) ==>
      || (!f.FreshpayRefIs? && row.mokoReference == f.mokoReference)
      || (!f.MokoReferenceIs? && row.freshpayRef == f.freshpayRef)
  {
    match f
    case EitherReference(m, p) => row.mokoReference == m || row.freshpayRef == p
    case MokoReferenceIs(m) => row.mokoReference == m
    case FreshpayRefIs(p) => row.freshpayRef == p
  }

  /** The filter built from the identifiers present: an OR when both are,
      an equality on the one that is present otherwise. Only called once at
      least one identifier is truthy. */
  function ChooseFilter(ref: JsValue, providerId: JsValue): (f: MatchFilter)
    requires Truthy(ref) || Truthy(providerId)
    ensures forall row :: Selects(f, row) <==>
      (Truthy(ref) && row.mokoReference == ref) || (Truthy(providerId) && row.freshpayRef == providerId)
  {
    if Truthy(ref) && Truthy(providerId) then EitherReference(ref, providerId)
    else if Truthy(ref) then MokoReferenceIs(ref)
    else FreshpayRefIs(providerId)
  }

  /** What the handler does with a callback before touching the store. */
  datatype Decision =
    | IgnoreEncrypted                    // acknowledged, nothing computed or updated
    | RejectMissingIdentifiers           // 400, nothing updated
    | ApplyUpdate(newStatus: TxStatus, setFreshpayRef: Option<JsValue>, filter: MatchFilter)

  /** The handler's routing: encrypted payloads first, then the identifier
      check, then the status and the filter. `freshpay_ref` is only written
      when the callback carries a truthy provider id
      (`freshpayTransactionId || undefined`). */
  function Route(body: CallbackBody): (d: Decision)
    ensures d.IgnoreEncrypted? <==> Truthy(body.data)
    ensures d.RejectMissingIdentifiers? <==>
      !Truthy(body.data) && !Truthy(TransactionRef(body)) && !Truthy(body.transactionId)
    ensures d.ApplyUpdate? ==> d.newStatus == MapProviderStatus(FinalStatus(body))
    ensures d.ApplyUpdate? ==>
      (d.setFreshpayRef == if Truthy(body.transactionId) then Some(body.transactionId) else None)
    ensures d.ApplyUpdate? ==> forall row :: Selects(d.filter, row) <==>
      (Truthy(TransactionRef(body)) && row.mokoReference == TransactionRef(body))
      || (Truthy(body.transactionId) && row.freshpayRef == body.transactionId)
  {
    var ref := TransactionRef(body);
    var providerId := body.transactionId;
    if Truthy(body.data) then IgnoreEncrypted
    else if !Truthy(ref) && !Truthy(providerId) then RejectMissingIdentifiers
    else
      ApplyUpdate(
        MapProviderStatus(FinalStatus(body)),
        if Truthy(providerId) then Some(providerId) else None,
        ChooseFilter(ref, providerId))
  }

  /** The filter's shape in each of the three cases. */
  lemma FilterShape(body: CallbackBody)
    requires !Truthy(body.data)
    ensures var ref, id := TransactionRef(body), body.transactionId;
      && (Truthy(ref) && Truthy(id) ==> Route(body).filter == EitherReference(ref, id))
      && (Truthy(ref) && !Truthy(id) ==> Route(body).filter == MokoReferenceIs(ref))
      && (!Truthy(ref) && Truthy(id) ==> Route(body).filter == FreshpayRefIs(id))
  {
  }

  /** A truthy `data` field decides alone: the other fields are not read. */
  lemma EncryptedIgnoresOtherFields(a: CallbackBody, b: CallbackBody)
    requires Truthy(a.data) && Truthy(b.data)
    ensures Route(a) == Route(b) == IgnoreEncrypted
  {
  }

  /** The `.or(...)` filter selects the union of the rows its two
      equalities select. */
  lemma EitherReferenceIsUnion(m: JsValue, p: JsValue, row: StoredRow)
    ensures Selects(EitherReference(m, p), row) <==>
      Selects(MokoReferenceIs(m), row) || Selects(FreshpayRefIs(p), row)
  {
  }

  /** A filter never matches on an absent identifier: every value it
      compares against is truthy. */
  lemma FilterUsesOnlyPresentIdentifiers(body: CallbackBody)
    requires Route(body).ApplyUpdate?
    ensures match Route(body).filter
      case EitherReference(m, p) => Truthy(m) && Truthy(p)
      case MokoReferenceIs(m) => Truthy(m)
      case FreshpayRefIs(p) => Truthy(p)
  {
  }

  /** The status table, with the two naming conventions resolved. */
  lemma StatusExamples(body: CallbackBody)
    requires Route(body).ApplyUpdate?
    ensures body.transStatus == Str("Successful") ==> Route(body).newStatus == SUCCESS
    ensures !Truthy(body.transStatus) && body.status == Str("Success") ==> Route(body).newStatus == SUCCESS
    ensures body.transStatus == Str("Failure") ==> Route(body).newStatus == FAILED
    ensures body.transStatus == Str("Pending") && body.status == Str("Success") ==> Route(body).newStatus == PENDING
    ensures !Truthy(body.transStatus) && body.status == Undefined ==> Route(body).newStatus == PENDING
  {
  }

  /** What the store reported for the update. */
  datatype UpdateReply = UpdateError | UpdatedRows(count: nat) | Threw

  /** The HTTP status the handler answers with. */
  function ResponseCode(d: Decision, reply: UpdateReply): (code: int)
    ensures code == 400 <==> d.RejectMissingIdentifiers?
    ensures code == 500 <==> d.ApplyUpdate? && reply.UpdateError?
    ensures code in {200, 400, 500}
  {
    match d
    case IgnoreEncrypted => 200
    case RejectMissingIdentifiers => 400
    case ApplyUpdate(_, _, _) =>
      match reply
      case UpdateError => 500
      case UpdatedRows(_) => 200   // "No matching transaction found" when zero
      case Threw => 200            // errors are logged and acknowledged
  }

  /** A callback with no matching row, or one that made the handler throw,
      is still acknowledged with 200, so the aggregator does not retry. */
  lemma AcknowledgedUnlessRejected(body: CallbackBody, reply: UpdateReply)
    requires Route(body).ApplyUpdate?
    requires reply == UpdatedRows(0) || reply == Threw
    ensures ResponseCode(Route(body), reply) == 200
  {
  }
}
